=== FILE: README.md ===
# secureStrings in Dafny

A model of the secureStrings library: a fixed-capacity, length-tracked byte
string (`sstring`) together with the flat set of functions that copy, append,
slice, truncate, clear, wipe, swap, read, write, compare and search such
strings. It also covers the raw-byte convenience layer (`sstr_cpycstr`,
`sstr_appdcstr`, `sstr_cmpcstr`) and the `SSTRING` literal view. Every
operation checks its preconditions explicitly. It then either succeeds, or
returns `SSTR_FAIL` and changes nothing.

The model has two layers.

- **Value model** (`bytes.dfy`, `securestr.dfy`, `securestr_conv.dfy`):
  - A buffer is the record `SString(chars, cap, len)`. `chars` is the whole
    storage of `cap + 1` bytes.
  - `Valid()` is the library's invariant: `len <= cap <= CAP_MAX` and
    `chars[len] == 0`.
  - Each C function is a pure function. It maps its arguments and the buffers'
    states to a result code and the buffers' new states.
  - A NULL pointer is `None`.
  - The contracts state what each call means:
    - when it passes, as an if-and-only-if;
    - that `Valid` is preserved;
    - the new content, as a concatenation, slice, prefix or leftmost match;
    - that nothing changes on FAIL.
- **Heap model** (`securestr_impl.dfy`, `securestr_conv_impl.dfy`):
  - The struct is a class over an `array<bv8>` of `cap + 1` elements, and
    buffer pointers are nullable references.
  - The methods follow the C loops.
  - Each method is proved to have exactly the effect the value model gives,
    including when source and destination are the same buffer. The test
    driver passes such aliased arguments. The C code handles them correctly
    because its copies run forward, so no byte is read after it has been
    overwritten.
  - The inner comparison loop of `sstr_indexof` also tests
    `src_off < src->len`. That test is redundant (`MatchRest`), so a returned
    position is always a complete match.

`properties.dfy` relates operations to each other: round trips, idempotence,
involution, and how the raw-byte layer agrees with the buffer operations.
`scenarios.dfy` states, as lemmas, what the value model gives on small
concrete buffers.

Platform assumptions:
- `size_t` is 64 bits: `SIZE_MAX = 2^64 - 1`, so `SSTR_CAP_MAX = SIZE_MAX - 128`.
- `unsigned int` is 32 bits: `SSTR_FAIL = 2^32 - 1`.
- `SSTR_PASS` and `SSTR_FALSE` are both 0, and `SSTR_TRUE` is 1.
- `SSTR_NPOS` is `SIZE_MAX`.
- Unsigned subtraction is written out with wrap-around (`Bytes.Sub`). The
  guards use it exactly as the C code does, and the contracts show that it
  never wraps on valid buffers.

The two comparisons treat a length mismatch differently. `sstr_cmp` answers
`SSTR_FALSE` when the lengths differ (src/securestr.c:417-430). `sstr_cmpcstr`
answers `SSTR_FAIL` when the given length differs from the buffer's
(src/securestr_conv.c:124-138). `CmpCstrVsCmp` states the difference.

## Model

| member | source | states |
|---|---|---|
| SecureStr.SString | src/securestr.h:75-80 | the struct: storage `chars` of `cap + 1` bytes, capacity `cap`, length `len`; `Valid()` is the invariant every operation keeps: `len <= cap <= SSTR_CAP_MAX` and a zero byte right after the content |
| SecureStr.ValidIsBoundedAndTerminated | src/securestr.h:38-67 | a valid buffer's storage never exceeds `SSTR_RCAP_MAX` elements, so the top 127 values of `size_t` are never an array size, and its content is zero-terminated (it may itself hold zero bytes) |
| Bytes.Sub | src/securestr.c:177 | the unsigned `size_t` subtraction in the guards is subtraction modulo 2^64 |
| SecureStr.Write | src/securestr.c:142-151 | keeping the first `at` content bytes and writing `bytes` after them yields a valid buffer, same capacity, content `old[..at] + bytes`, storage past the new terminator untouched |
| SecureStr.Alloc | src/securestr.c:72-105 | returns NULL exactly when `cap > SSTR_CAP_MAX`; otherwise a valid, empty buffer of that capacity with `chars[0] == 0` and the other `cap` bytes as the allocator left them |
| SecureStr.Cpy | src/securestr.c:129-158 | passes iff both non-NULL and `dst.cap >= src.len`; then `dst` holds exactly `src`'s content, same capacity, still valid; on FAIL `dst` is unchanged |
| SecureStr.Appd | src/securestr.c:164-195 | passes iff both non-NULL and `dst.len + src.len <= dst.cap` (the unsigned `cap - len` cannot wrap); new content is old content followed by `src`'s; on FAIL unchanged |
| SecureStr.AppdChar | src/securestr.c:201-224 | passes iff non-NULL and `len < cap`; new content is old content plus the byte; on FAIL unchanged |
| SecureStr.Substr | src/securestr.c:511-548 | passes iff both non-NULL, `start + n <= src.len` and `n <= dst.cap` (the short-circuit keeps `len - start` from wrapping); `dst` then holds `src[start..start+n]`; on FAIL unchanged |
| SecureStr.AppdSubstr | src/securestr.c:554-591 | same source checks, passes iff also `dst.len + n <= dst.cap`; new content is old content followed by `src[start..start+n]`; on FAIL unchanged |
| SecureStr.Trunc | src/securestr.c:262-279 | passes iff non-NULL and `n <= len`, so content never grows; new content is the old content's first `n` bytes, and only `chars[n]` is written |
| SecureStr.Clear | src/securestr.c:285-298 | passes iff non-NULL; content becomes empty, only `chars[0]` is written, every other storage byte is unchanged |
| SecureStr.Wipe | src/securestr.c:304-325 | passes iff non-NULL; content becomes empty and all `cap + 1` storage bytes are zero, capacity unchanged |
| SecureStr.Swap | src/securestr.c:331-356 | passes iff both non-NULL and then exchanges the two buffers entirely; on FAIL neither changes; validity is kept |
| SecureStr.GetChar | src/securestr.c:362-379 | passes iff the buffer and the output cell are non-NULL and `idx < len` (never `idx < cap`); then the cell receives content byte `idx`, otherwise it is untouched |
| SecureStr.SetChar | src/securestr.c:385-402 | passes iff non-NULL and `idx < len`; exactly storage byte `idx` changes, length and capacity unchanged |
| SecureStr.Cmp | src/securestr.c:408-434 | FAIL exactly on NULL; TRUE exactly when the lengths are equal and the storage agrees byte by byte over the content; otherwise FALSE |
| SecureStr.StartsWith | src/securestr.c:440-466 | FAIL exactly on NULL; TRUE exactly when the pattern is no longer than the source and its bytes equal the source's first bytes; otherwise FALSE |
| SecureStr.EndsWith | src/securestr.c:472-505 | FAIL exactly on NULL; TRUE exactly when the pattern is no longer than the source and its bytes equal the source's last bytes; otherwise FALSE |
| SecureStr.IndexOf | src/securestr.c:597-652 | NPOS iff a pointer is NULL or the pattern occurs nowhere; otherwise the least offset at which it occurs, with the whole window inside the content; 0 for an empty pattern, even in an empty buffer |
| SecureStr.LenAsWritten | src/securestr.c:230-240 | the length of a non-NULL buffer; for NULL, `SSTR_FAIL` converted to `size_t`, which is 2^32 - 1 |
| SecureStr.CapAsWritten | src/securestr.c:246-256 | the capacity of a non-NULL buffer; for NULL, 2^32 - 1 |
| SecureStr.SentinelAmbiguous | src/securestr.c:230-256 | a valid buffer of length and capacity 2^32 - 1 gets the same answers from `sstr_len` and `sstr_cap` as NULL does |
| SecureStr.Len | src/securestr.h:40-67 | corrected `sstr_len`: the answer is a real length exactly when the pointer is non-NULL, because NULL gets a value from the reserved range above `SSTR_CAP_MAX` |
| SecureStr.Cap | src/securestr.h:40-67 | corrected `sstr_cap`: likewise, NULL is answered from the reserved range, and exactly NULL is |
| SecureStrConv.Literal | src/securestr_conv.h:46-48 | the `SSTRING(text)` view satisfies `Valid()`, with `len == cap == sizeof(text) - 1` and content `text`; it is a read-only source or pattern, never a destination |
| SecureStrConv.CpyCstr | src/securestr_conv.c:42-71 | passes iff both pointers non-NULL and `dst.cap >= n`; then content is exactly the first `n` raw bytes, `len == n`, terminated; on FAIL unchanged |
| SecureStrConv.AppdCstr | src/securestr_conv.c:77-108 | passes iff both non-NULL and `dst.len + n <= dst.cap`; content becomes old content followed by the first `n` raw bytes; on FAIL unchanged |
| SecureStrConv.CmpCstr | src/securestr_conv.c:114-138 | FAIL exactly on NULL or when `n` differs from the length; TRUE exactly when all `n` raw bytes equal the content; otherwise FALSE |
| Bytes.FirstMatch | src/securestr.c:618-647 | the leftmost offset at or after `from` where the pattern occurs, or none when it occurs at no such offset |
| SecureStrImpl.SStr | src/securestr.h:75-80 | the struct as a mutable object over a byte array; `Model()` is its state as a `SecureStr.SString`, and the constructor gives a valid zero-length buffer over storage of `capacity + 1` bytes that starts with a zero |
| SecureStrImpl.CopyBytes | src/securestr.c:143-146 | the forward copy loop writes `from[si..si+n]` over `to[di..di+n]` and nothing else, also when both are the same array provided reading never lags behind writing |
| SecureStrImpl.WriteAt | src/securestr.c:179-188 | the copy loop, length update and terminator write together have exactly the effect of `SecureStr.Write` on the buffer's state |
| SecureStrImpl.Alloc | src/securestr.c:72-105 | returns `null` exactly above the ceiling; otherwise a fresh buffer whose state is what `SecureStr.Alloc` describes |
| SecureStrImpl.Cpy | src/securestr.c:129-158 | the result code and new destination state are those of `SecureStr.Cpy` on the pre-call states, also when `src == dst`; the buffer keeps its own storage array, written in place |
| SecureStrImpl.Appd | src/securestr.c:164-195 | result and new state as `SecureStr.Appd`; with `src == dst` the content is doubled; the buffer keeps its own storage array, written in place |
| SecureStrImpl.AppdChar | src/securestr.c:201-224 | result and new state as `SecureStr.AppdChar`; the buffer keeps its own storage array, written in place |
| SecureStrImpl.Substr | src/securestr.c:511-548 | result and new state as `SecureStr.Substr`, also when `src == dst`; the buffer keeps its own storage array, written in place |
| SecureStrImpl.AppdSubstr | src/securestr.c:554-591 | result and new state as `SecureStr.AppdSubstr`, also when `src == dst`; the buffer keeps its own storage array, written in place |
| SecureStrImpl.Trunc | src/securestr.c:262-279 | result and new state as `SecureStr.Trunc`; the buffer keeps its own storage array, written in place |
| SecureStrImpl.Clear | src/securestr.c:285-298 | result and new state as `SecureStr.Clear`; the buffer keeps its own storage array, written in place |
| SecureStrImpl.ClearThenAppdChar | src/securestr.c:201-298 | a client may mutate one buffer twice in a row: clearing and then appending a byte into a buffer with room passes and leaves exactly that byte in the same storage |
| SecureStrImpl.Wipe | src/securestr.c:304-325 | the zeroing loop over `0..cap` inclusive gives the state `SecureStr.Wipe` describes; the buffer keeps its own storage array, written in place |
| SecureStrImpl.Swap | src/securestr.c:331-356 | the three-way field exchange gives the states `SecureStr.Swap` describes, also when both arguments are the same buffer; the two `chars` arrays themselves change owners |
| SecureStrImpl.GetChar | src/securestr.c:362-379 | result code and output cell as `SecureStr.GetChar` |
| SecureStrImpl.SetChar | src/securestr.c:385-402 | result and new state as `SecureStr.SetChar`; the buffer keeps its own storage array, written in place |
| SecureStrImpl.Cmp | src/securestr.c:408-434 | TRUE iff both contents are equal, FALSE otherwise (at once when lengths differ), FAIL on NULL |
| SecureStrImpl.StartsWith | src/securestr.c:440-466 | TRUE iff the pattern's content is a prefix of the source's, so always for an empty pattern; FALSE otherwise; FAIL on NULL |
| SecureStrImpl.EndsWith | src/securestr.c:472-505 | TRUE iff the pattern's content is a suffix of the source's (backward scan), so always for an empty pattern; FALSE otherwise; FAIL on NULL |
| SecureStrImpl.MatchRest | src/securestr.c:620-646 | having matched the first byte at `i` inside the outer bound, the inner loop answers true exactly for a complete match; its `src_off < len` test never ends it early |
| SecureStrImpl.IndexOf | src/securestr.c:597-652 | the naive two-loop search returns what `SecureStr.IndexOf` specifies: the leftmost genuine match, 0 for an empty pattern, otherwise NPOS |
| SecureStrConvImpl.CpyCstr | src/securestr_conv.c:42-71 | result and new state as `SecureStrConv.CpyCstr`, even when the raw source is the destination's own storage; the buffer keeps its own storage array, written in place |
| SecureStrConvImpl.AppdCstr | src/securestr_conv.c:77-108 | result and new state as `SecureStrConv.AppdCstr`; the buffer keeps its own storage array, written in place |
| SecureStrConvImpl.CmpCstr | src/securestr_conv.c:114-138 | TRUE iff `n == len` and all `n` bytes match; FALSE if lengths match but a byte differs; FAIL if `n != len` or a pointer is NULL |
| Properties.CpyThenCmp | src/securestr.c:129-158 | after a successful copy, comparing source and destination gives TRUE and their lengths agree |
| Properties.SwapTwice | src/securestr.c:331-356 | swapping twice restores both buffers, with the same result code both times |
| Properties.ClearIdempotent | src/securestr.c:285-298 | clearing a cleared buffer passes again and changes nothing |
| Properties.WipeIdempotent | src/securestr.c:304-325 | wiping a wiped buffer passes again and changes nothing |
| Properties.AppdThenSubstr | src/securestr.c:164-195 | after an append, extracting the appended range gives back exactly the appended content |
| Properties.AppdThenStartsEnds | src/securestr.c:440-505 | after an append, the result starts with the old content and ends with the appended content |
| Properties.TruncThenAppdSubstr | src/securestr.c:262-279 | truncating to `n` and then appending the original's bytes from `n` onward restores the original content |
| Properties.SetThenGet | src/securestr.c:362-402 | the byte `sstr_setchar` writes is the byte `sstr_getchar` reads back |
| Properties.CmpIsMutualPrefix | src/securestr.c:408-466 | two buffers compare equal iff each starts with the other |
| Properties.StartsWithIffIndexOfZero | src/securestr.c:440-466 | a pattern is a prefix iff the search returns offset 0 |
| Properties.EmptyPatternAlwaysMatches | src/securestr.c:440-652 | the empty pattern is a prefix and a suffix of every buffer, and the search finds it at 0, even in an empty buffer |
| Properties.EndsWithThenFound | src/securestr.c:472-505 | a suffix is always found by the search, no later than `len - pat.len` |
| Properties.LiteralIsFull | src/securestr_conv.h:46-48 | appending a non-empty buffer, a byte, a slice or raw bytes into a literal view always fails and leaves it unchanged |
| Properties.CpyCstrIsCpyOfLiteral | src/securestr_conv.c:42-71 | copying `n` raw bytes equals copying from their literal view |
| Properties.AppdCstrIsAppdOfLiteral | src/securestr_conv.c:77-108 | appending `n` raw bytes equals appending their literal view |
| Properties.CmpCstrVsCmp | src/securestr_conv.c:114-138 | with equal lengths the raw comparison agrees with the buffer comparison of the literal view; with different lengths it is FAIL where the buffer comparison is FALSE |
| Properties.CpyCstrUsesExactlyN | src/securestr_conv.c:56-58 | only the first `n` raw bytes matter to the raw copy and compare, whatever follows them |
| Scenarios.CopyHello | src/securestr.c:129-158 | copying "hello" into an empty capacity-10 buffer passes and gives "hello", length 5 |
| Scenarios.AppendOneTooMany | src/securestr.c:177 | appending 6 bytes to "hello" in capacity 10 fails and leaves it unchanged |
| Scenarios.SubstringWorld | src/securestr.c:511-548 | offset 6, count 5 of "hello world" is "world" |
| Scenarios.LeftmostBc | src/securestr.c:597-652 | "bc" is found in "abcabc" at 1 |
| Scenarios.StartsWithEmpty | src/securestr.c:440-466 | "hello" starts with the empty pattern |

## Left out

- `sstr_dealloc` and heap exhaustion: storage comes from Dafny's `new`. Only the capacity ceiling can make allocation fail in the model.
- `sstr_version`: a constant metadata string.
- The command-line test driver `src/libtest.c`: argument parsing, printing and exit codes. It only shows that aliased arguments occur, and the heap model allows them.
- The platform macros behind `SSTR_SIZE_T_MAX` and `SSTR_RCAP_MAX`: a 64-bit `size_t` and a 32-bit `unsigned int` are fixed instead.
- The `_MAC_OS_X` definitions, the camel-case alias macros, `const` mismatches and `register`: naming and compiler details with no behaviour.
- Concurrency: the library provides none.
- Reads on the failure path: the model states that nothing is written on FAIL. It cannot state that nothing is read.
- SecureStrConv.CpyCstr, SecureStrConv.AppdCstr, SecureStrConv.CmpCstr, SecureStrConvImpl.CpyCstr, SecureStrConvImpl.AppdCstr, SecureStrConvImpl.CmpCstr: each requires the raw source to hold at least `n` bytes whenever it is non-NULL (`Readable`). The C code reads those bytes only after its guard passes: `cap >= n` for the copy, `cap - len >= n` for the append, `n == len` for the compare. The demand is the caller's documented duty to pass the correct length.
- SecureStrConv.Literal: the view's storage is a string literal, which C does not allow to be written, and the model does not mark it read-only. A write into a literal view is undefined in C, but passes in the model when its guard holds, for example `sstr_clear`, `sstr_setchar`, or a copy of an empty buffer into it. The view is meant only as a source or a pattern, and that is the only way the lemmas here use it.
- SecureStrConvImpl.AppdCstr: requires that, when the raw source is the destination's own storage, `n` does not exceed the current length. With a longer overlap, the C loop would read bytes it has just written, and this is not modelled.
- Literal views are required to fit under `SSTR_CAP_MAX`. No real object is near that size.
- Owned buffers: two different buffers are assumed never to share storage. Aliasing of one buffer with itself is modelled.

## Findings

| source | as written | input that shows it | evidently intended | confidence | as-written member | corrected member |
|---|---|---|---|---|---|---|
| src/securestr.c:239 | on NULL `sstr_len` returns `SSTR_FAIL`, a 32-bit `unsigned int` all-ones value, converted to `size_t`: 2^32 - 1 with a 64-bit `size_t` | NULL, and a buffer of length 2^32 - 1 (a capacity `sstr_alloc` accepts): both give 2^32 - 1 | a status value from the top of `size_t` reserved above `SSTR_CAP_MAX` (src/securestr.h:40-67), so a length and a failure cannot coincide | medium, not executed | SecureStr.LenAsWritten, SecureStr.SentinelAmbiguous | SecureStr.Len |
| src/securestr.c:255 | `sstr_cap` has the same NULL answer, 2^32 - 1 | NULL, and a buffer of capacity 2^32 - 1: both give 2^32 - 1 | as above | medium, not executed | SecureStr.CapAsWritten, SecureStr.SentinelAmbiguous | SecureStr.Cap |

=== FILE: bytes.dfy ===
/** Machine-level vocabulary shared by the whole model: bytes, the unsigned
    `size_t` arithmetic the library's guards are written in, a nullable
    wrapper, and the sequence relations (prefix, suffix, match at an offset,
    leftmost match) that the operations are specified against. */
module Bytes {

  /** A C `char`, treated as a raw 8-bit code unit. */
  type byte = bv8

  /** Largest value of `size_t`; the model assumes a 64-bit platform. */
  const SIZE_MAX: nat := 0xFFFF_FFFF_FFFF_FFFF

  /** A value of C's unsigned `size_t` (also the library's position type). */
  type Size = x: int | 0 <= x <= SIZE_MAX

  /** C's `a - b` on `size_t`: wraps around modulo 2^64 when `b > a`. */
  function Sub(a: Size, b: Size): (r: Size)
    ensures r == (a - b) % (SIZE_MAX + 1)
  {
    if b <= a then a - b else a - b + SIZE_MAX + 1
  }

  /** A C pointer that may be NULL: `None` is NULL. */
  datatype Option<+T> = None | Some(value: T)

  /** `p` occurs in `s` starting at offset `i`. */
  predicate MatchAt(s: seq<byte>, p: seq<byte>, i: nat) {
    i + |p| <= |s| && s[i..i + |p|] == p
  }

  predicate IsPrefix(p: seq<byte>, s: seq<byte>) {
    |p| <= |s| && s[..|p|] == p
  }

  predicate IsSuffix(p: seq<byte>, s: seq<byte>) {
    |p| <= |s| && s[|s| - |p|..] == p
  }

  /** The least offset `i >= from` at which `p` occurs in `s`, if any. */
  function FirstMatch(s: seq<byte>, p: seq<byte>, from: nat): (r: Option<nat>)
    ensures r.Some? ==> from <= r.value && MatchAt(s, p, r.value)
    ensures r.Some? ==> forall j :: from <= j < r.value ==> !MatchAt(s, p, j)
    ensures r.None? ==> forall j :: from <= j ==> !MatchAt(s, p, j)
    decreases |s| - from
  {
    if from + |p| > |s| then None
    else if s[from..from + |p|] == p then Some(from)
    else FirstMatch(s, p, from + 1)
  }

  /** Matching is decided by the bytes alone: `MatchAt` agrees with a
      byte-by-byte comparison of the window. */
  lemma {:induction false} MatchAtBytewise(s: seq<byte>, p: seq<byte>, i: nat)
    requires i + |p| <= |s|
    ensures MatchAt(s, p, i) <==> forall k :: 0 <= k < |p| ==> s[i + k] == p[k]
  {
    if forall k :: 0 <= k < |p| ==> s[i + k] == p[k] {
      assert forall k :: 0 <= k < |p| ==> s[i..i + |p|][k] == p[k];
    }
  }

  /** A prefix is a match at offset 0, and a suffix is a match at the
      offset that aligns the two ends. */
  lemma PrefixSuffixAreMatches(p: seq<byte>, s: seq<byte>)
    ensures IsPrefix(p, s) <==> MatchAt(s, p, 0)
    ensures IsSuffix(p, s) <==> |p| <= |s| && MatchAt(s, p, |s| - |p|)
  {
  }

  /** Writing a terminator right after `a` in `a + c` replaces the first byte
      of `c`. */
  lemma TerminateAfter(a: seq<byte>, c: seq<byte>)
    requires |c| >= 1
    ensures (a + c)[|a| := 0] == a + [0] + c[1..]
  {
  }
}

=== FILE: properties.dfy ===
/** Properties that relate several operations of the value model: round
    trips, idempotence, involution, and how the raw-byte layer and the
    literal view line up with the buffer operations. */
module Properties {
  import opened Bytes
  import opened SecureStr
  import opened SecureStrConv

  /** A successful copy makes the destination compare equal to the source. */
  lemma CpyThenCmp(src: Option<SString>, dst: Option<SString>)
    requires Ok(src) && Ok(dst) && Cpy(src, dst).rc == PASS
    ensures Cmp(src, Cpy(src, dst).dst) == TRUE
    ensures Cpy(src, dst).dst.value.len == src.value.len
  {
  }

  /** Swapping twice restores both buffers. */
  lemma SwapTwice(a: Option<SString>, b: Option<SString>)
    requires Ok(a) && Ok(b)
    ensures var p := Swap(a, b); var q := Swap(p.first, p.second);
      q.rc == p.rc && q.first == a && q.second == b
  {
  }

  /** Clearing an already cleared buffer changes nothing and still passes. */
  lemma ClearIdempotent(d: Option<SString>)
    requires Ok(d)
    ensures var once := Clear(d);
      Clear(once.dst) == once
  {
    if d.Some? {
      var cleared := d.value.chars[0 := 0];
      assert cleared[0 := 0] == cleared;
    }
  }

  /** Wiping an already wiped buffer changes nothing and still passes. */
  lemma WipeIdempotent(d: Option<SString>)
    requires Ok(d)
    ensures var once := Wipe(d);
      Wipe(once.dst) == once
  {
  }

  /** Append, then extract the appended range: the extracted bytes are
      exactly what was appended. */
  lemma AppdThenSubstr(src: Option<SString>, dst: Option<SString>, out: Option<SString>)
    requires Ok(src) && Ok(dst) && Ok(out)
    requires Appd(src, dst).rc == PASS
    requires out.Some? && src.value.len <= out.value.cap
    ensures var grown := Appd(src, dst).dst;
      var r := Substr(grown, out, dst.value.len, src.value.len);
      r.rc == PASS && r.dst.value.Content() == src.value.Content()
  {
    var grown := Appd(src, dst).dst;
    var c := grown.value.Content();
    assert c == dst.value.Content() + src.value.Content();
    assert c[dst.value.len..dst.value.len + src.value.len] == src.value.Content();
  }

  /** After an append, the old content is a prefix of the result and the
      appended content a suffix of it. */
  lemma AppdThenStartsEnds(src: Option<SString>, dst: Option<SString>)
    requires Ok(src) && Ok(dst) && Appd(src, dst).rc == PASS
    ensures StartsWith(Appd(src, dst).dst, dst) == TRUE
    ensures EndsWith(Appd(src, dst).dst, src) == TRUE
  {
    var c := Appd(src, dst).dst.value.Content();
    assert c[..dst.value.len] == dst.value.Content();
    assert c[|c| - src.value.len..] == src.value.Content();
  }

  /** Truncation loses nothing that cannot be put back: appending the cut-off
      tail of the original buffer restores its content. */
  lemma TruncThenAppdSubstr(d: Option<SString>, n: Size)
    requires Ok(d) && Trunc(d, n).rc == PASS
    ensures var t := Trunc(d, n).dst;
      var r := AppdSubstr(d, t, n, d.value.len - n);
      r.rc == PASS && r.dst.value.Content() == d.value.Content()
  {
    var c := d.value.Content();
    assert c[..n] + c[n..n + (d.value.len - n)] == c;
  }

  /** What `SetChar` writes, `GetChar` reads back. */
  lemma SetThenGet(c: byte, d: Option<SString>, idx: Size, cell: byte)
    requires Ok(d) && SetChar(c, d, idx).rc == PASS
    ensures GetChar(SetChar(c, d, idx).dst, Some(cell), idx) == Fetch(PASS, Some(c))
  {
  }

  /** Equality is mutual prefixing. */
  lemma CmpIsMutualPrefix(a: Option<SString>, b: Option<SString>)
    requires Ok(a) && Ok(b) && a.Some? && b.Some?
    ensures Cmp(a, b) == TRUE <==> StartsWith(a, b) == TRUE && StartsWith(b, a) == TRUE
  {
    if StartsWith(a, b) == TRUE && StartsWith(b, a) == TRUE {
      assert a.value.Content() == b.value.Content()[..a.value.len];
    }
  }

  /** A pattern is a prefix exactly when the search finds it at offset 0. */
  lemma StartsWithIffIndexOfZero(src: Option<SString>, pat: Option<SString>)
    requires Ok(src) && Ok(pat) && src.Some? && pat.Some?
    ensures StartsWith(src, pat) == TRUE <==> IndexOf(src, pat) == 0
  {
    PrefixSuffixAreMatches(pat.value.Content(), src.value.Content());
  }

  /** The empty pattern is a prefix and a suffix of every buffer, and the
      search finds it at offset 0, even in an empty buffer. */
  lemma EmptyPatternAlwaysMatches(src: Option<SString>, e: SString)
    requires Ok(src) && src.Some? && e.Valid() && e.len == 0
    ensures StartsWith(src, Some(e)) == TRUE
    ensures EndsWith(src, Some(e)) == TRUE
    ensures IndexOf(src, Some(e)) == 0
  {
  }

  /** A suffix is always found by the search, no later than where it
      ends the content. */
  lemma EndsWithThenFound(src: Option<SString>, pat: Option<SString>)
    requires Ok(src) && Ok(pat) && EndsWith(src, pat) == TRUE
    ensures IndexOf(src, pat) != NPOS
    ensures IndexOf(src, pat) <= src.value.len - pat.value.len
  {
    var s, p := src.value.Content(), pat.value.Content();
    PrefixSuffixAreMatches(p, s);
    assert MatchAt(s, p, |s| - |p|);
  }

  /** A literal view has no free space: every non-empty append into it, of
      a buffer, a byte, a slice or raw bytes, fails and leaves it as it
      was. */
  lemma LiteralIsFull(text: seq<byte>, src: Option<SString>, c: byte, raw: seq<byte>)
    requires |text| <= CAP_MAX && Ok(src) && src.Some? && src.value.len > 0
    requires 0 < |raw| <= CAP_MAX
    ensures var lit := Some(Literal(text));
      && Appd(src, lit) == Step(FAIL, lit)
      && AppdChar(c, lit) == Step(FAIL, lit)
      && AppdSubstr(src, lit, 0, src.value.len) == Step(FAIL, lit)
      && AppdCstr(Some(raw), lit, |raw|) == Step(FAIL, lit)
  {
  }

  /** Copying raw bytes is copying from their literal view. */
  lemma CpyCstrIsCpyOfLiteral(text: seq<byte>, dst: Option<SString>)
    requires |text| <= CAP_MAX && Ok(dst)
    ensures CpyCstr(Some(text), dst, |text|) == Cpy(Some(Literal(text)), dst)
  {
    assert text[..|text|] == text;
  }

  /** Appending raw bytes is appending their literal view. */
  lemma AppdCstrIsAppdOfLiteral(text: seq<byte>, dst: Option<SString>)
    requires |text| <= CAP_MAX && Ok(dst)
    ensures AppdCstr(Some(text), dst, |text|) == Appd(Some(Literal(text)), dst)
  {
    assert text[..|text|] == text;
  }

  /** Comparing with raw bytes agrees with comparing with their literal view
      when the lengths match; when they do not, the raw comparison FAILs
      where the buffer comparison answers FALSE. */
  lemma CmpCstrVsCmp(src: Option<SString>, text: seq<byte>)
    requires Ok(src) && src.Some? && |text| <= CAP_MAX
    ensures |text| == src.value.len ==>
      CmpCstr(src, Some(text), |text|) == Cmp(src, Some(Literal(text)))
    ensures |text| != src.value.len ==>
      CmpCstr(src, Some(text), |text|) == FAIL && Cmp(src, Some(Literal(text))) == FALSE
  {
    assert text[..|text|] == text;
  }

  /** The raw layer uses exactly the `n` bytes it is told to: bytes past
      them, a zero byte among them, make no difference. */
  lemma CpyCstrUsesExactlyN(a: seq<byte>, b: seq<byte>, dst: Option<SString>, n: Size)
    requires Ok(dst) && n <= |a| && n <= |b| && a[..n] == b[..n]
    ensures CpyCstr(Some(a), dst, n) == CpyCstr(Some(b), dst, n)
    ensures CmpCstr(dst, Some(a), n) == CmpCstr(dst, Some(b), n)
  {
  }
}

=== FILE: scenarios.dfy ===
/** Lemmas about the value model on small buffers of ASCII text. */
module Scenarios {
  import opened Bytes
  import opened SecureStr

  const HELLO: seq<byte> := [0x68, 0x65, 0x6C, 0x6C, 0x6F]                  // "hello"
  const WORLD: seq<byte> := [0x77, 0x6F, 0x72, 0x6C, 0x64]                  // "world"
  const HELLO_WORLD: seq<byte> := HELLO + [0x20] + WORLD                     // "hello world"
  const BANGS: seq<byte> := [0x21, 0x21, 0x21, 0x21, 0x21, 0x21]            // "!!!!!!"
  const ABCABC: seq<byte> := [0x61, 0x62, 0x63, 0x61, 0x62, 0x63]           // "abcabc"
  const BC: seq<byte> := [0x62, 0x63]                                        // "bc"

  /** A valid buffer of capacity `cap` holding `text`, zero behind it. */
  ghost function Holding(text: seq<byte>, cap: nat): (b: SString)
    requires |text| <= cap <= CAP_MAX
    ensures b.Valid() && b.cap == cap && b.Content() == text
  {
    var b := SString(text + seq(cap + 1 - |text|, _ => 0), cap, |text|);
    assert b.chars[..|text|] == text;
    b
  }

  /** Copying "hello" into an empty buffer of capacity 10 passes and leaves
      "hello", five bytes long, in it. */
  lemma CopyHello()
    ensures var a := Some(Holding(HELLO, 10));
      var b := Some(Holding([], 10));
      var r := Cpy(a, b);
      r.rc == PASS && r.dst.value.len == 5 && r.dst.value.Content() == HELLO
  {
  }

  /** Appending six bytes to "hello" in a buffer of capacity 10 fails, one
      byte short, and the buffer still holds "hello". */
  lemma AppendOneTooMany()
    ensures var a := Some(Holding(HELLO, 10));
      var r := Appd(Some(Holding(BANGS, 10)), a);
      r.rc == FAIL && r.dst == a
  {
  }

  /** Five bytes from offset 6 of "hello world" are "world". */
  lemma SubstringWorld()
    ensures var r := Substr(Some(Holding(HELLO_WORLD, 11)), Some(Holding([], 5)), 6, 5);
      r.rc == PASS && r.dst.value.Content() == WORLD
  {
    assert HELLO_WORLD[6..11] == WORLD;
  }

  /** "bc" is found in "abcabc" first at offset 1. */
  lemma LeftmostBc()
    ensures IndexOf(Some(Holding(ABCABC, 6)), Some(Holding(BC, 2))) == 1
  {
    assert !MatchAt(ABCABC, BC, 0) by { assert ABCABC[0] != BC[0]; }
    assert MatchAt(ABCABC, BC, 1) by { assert ABCABC[1..3] == BC; }
  }

  /** "hello" starts with the empty pattern. */
  lemma StartsWithEmpty()
    ensures StartsWith(Some(Holding(HELLO, 5)), Some(Holding([], 0))) == TRUE
  {
  }
}

=== FILE: securestr.dfy ===
/** Value model of the secure string library: a buffer is an immutable
    `SString` record mirroring the C struct (storage, capacity, length), and
    each library function is a pure function from its arguments and the
    buffers' states to its result code and the buffers' new states. A NULL
    buffer pointer is `None`. */
module SecureStr {
  import opened Bytes

  /** Largest value of C's `unsigned int`, the width of a result code. */
  const UINT_MAX: nat := 0xFFFF_FFFF

  /** A result code (`sstr_rc`, an `unsigned int`). */
  type Rc = x: int | 0 <= x <= UINT_MAX

  /** The four result codes. PASS and FALSE share the value 0, so a caller
      cannot tell a passed mutation from a false comparison by value alone. */
  const PASS: Rc := 0
  const FAIL: Rc := UINT_MAX
  const FALSE: Rc := 0
  const TRUE: Rc := 1

  /** The "no such position" answer of a search: all bits of `size_t` set. */
  const NPOS: Size := SIZE_MAX

  /** The allocation ceiling: 127 values below SIZE_MAX are reserved for
      status codes, and one more is kept for the terminator byte. */
  const CAP_MAX: Size := SIZE_MAX - 128

  /** A buffer: `chars` is the whole storage (`cap + 1` bytes), `len` the
      number of content bytes in use. */
  datatype SString = SString(chars: seq<byte>, cap: nat, len: nat) {

    /** The library's invariant: storage of `cap + 1` bytes, a capacity
        within the ceiling, content within capacity, and a zero byte right
        after the content. */
    predicate Valid() {
      && |chars| == cap + 1
      && cap <= CAP_MAX
      && len <= cap
      && chars[len] == 0
    }

    /** The bytes the buffer currently holds. */
    function Content(): (c: seq<byte>)
      requires Valid()
      ensures |c| == len
    {
      chars[..len]
    }
  }

  /** A buffer argument as passed to the library: NULL, or a valid buffer. */
  predicate Ok(b: Option<SString>) {
    b.None? || b.value.Valid()
  }

  /** What the invariant gives every buffer: its storage stays within
      SSTR_RCAP_MAX elements (the top 127 values of `size_t` are never an
      array size), and its content is zero-terminated. The content itself may
      hold zero bytes, so it need not be a C string of length `len`. */
  lemma ValidIsBoundedAndTerminated(s: SString)
    requires s.Valid()
    ensures |s.chars| <= SIZE_MAX - 127
    ensures s.chars[..s.len + 1] == s.Content() + [0]
  {
  }

  /** The outcome of a call that may change one buffer. */
  datatype Step = Step(rc: Rc, dst: Option<SString>)

  /** The outcome of a call that may change two buffers. */
  datatype Pair = Pair(rc: Rc, first: Option<SString>, second: Option<SString>)

  /** The outcome of reading one byte into a caller's `char` cell (`None` when
      the cell's pointer is NULL). */
  datatype Fetch = Fetch(rc: Rc, out: Option<byte>)

  /** The common effect of every copy and append: keep the first `at` content
      bytes, write `bytes` after them, and terminate. Storage past the new
      terminator is left as it was. */
  function Write(d: SString, at: nat, bytes: seq<byte>): (r: SString)
    requires d.Valid() && at <= d.len && at + |bytes| <= d.cap
    ensures r.Valid() && r.cap == d.cap && r.len == at + |bytes|
    ensures r.Content() == d.Content()[..at] + bytes
    ensures r.chars[..at] == d.chars[..at]
    ensures r.chars[r.len + 1..] == d.chars[r.len + 1..]
  {
    var n := at + |bytes|;
    var r := d.(chars := d.chars[..at] + bytes + [0] + d.chars[n + 1..], len := n);
    assert r.chars[..n] == d.chars[..at] + bytes;
    r
  }

  /** sstr_alloc: a buffer of `cap` content bytes, empty and terminated, or
      NULL when `cap` is above the ceiling. `junk` stands for the `cap` bytes
      that the allocator hands back uninitialised behind the terminator. */
  function Alloc(cap: Size, junk: seq<byte>): (r: Option<SString>)
    requires cap <= CAP_MAX ==> |junk| == cap
    ensures r.Some? <==> cap <= CAP_MAX
    ensures r.Some? ==> r.value.Valid() && r.value.cap == cap && r.value.Content() == []
    ensures r.Some? ==> r.value.chars[0] == 0 && r.value.chars[1..] == junk
  {
    if cap <= CAP_MAX then Some(SString([0] + junk, cap, 0)) else None
  }

  /** sstr_cpy: overwrite `dst` with the content of `src`. */
  function Cpy(src: Option<SString>, dst: Option<SString>): (r: Step)
    requires Ok(src) && Ok(dst)
    ensures Ok(r.dst) && (r.dst.Some? <==> dst.Some?)
    ensures r.rc == PASS <==> src.Some? && dst.Some? && src.value.len <= dst.value.cap
    ensures r.rc != PASS ==> r.rc == FAIL && r.dst == dst
    ensures r.rc == PASS ==>
      && r.dst.value.cap == dst.value.cap
      && r.dst.value.Content() == src.value.Content()
  {
    if src.Some? && dst.Some? && dst.value.cap >= src.value.len then
      Step(PASS, Some(Write(dst.value, 0, src.value.Content())))
    else
      Step(FAIL, dst)
  }

  /** sstr_appd: append the content of `src` to `dst`. The free-space test
      `cap - len` is an unsigned subtraction; it cannot wrap because every
      valid buffer has `len <= cap`. */
  function Appd(src: Option<SString>, dst: Option<SString>): (r: Step)
    requires Ok(src) && Ok(dst)
    ensures Ok(r.dst) && (r.dst.Some? <==> dst.Some?)
    ensures r.rc == PASS <==>
      src.Some? && dst.Some? && dst.value.len + src.value.len <= dst.value.cap
    ensures r.rc != PASS ==> r.rc == FAIL && r.dst == dst
    ensures r.rc == PASS ==>
      && r.dst.value.cap == dst.value.cap
      && r.dst.value.Content() == dst.value.Content() + src.value.Content()
  {
    if src.Some? && dst.Some? && Sub(dst.value.cap, dst.value.len) >= src.value.len then
      var d := dst.value;
      assert d.Content()[..d.len] == d.Content();
      Step(PASS, Some(Write(d, d.len, src.value.Content())))
    else
      Step(FAIL, dst)
  }

  /** sstr_appdchar: append one byte when exactly one free slot remains or
      more. */
  function AppdChar(c: byte, dst: Option<SString>): (r: Step)
    requires Ok(dst)
    ensures Ok(r.dst) && (r.dst.Some? <==> dst.Some?)
    ensures r.rc == PASS <==> dst.Some? && dst.value.len < dst.value.cap
    ensures r.rc != PASS ==> r.rc == FAIL && r.dst == dst
    ensures r.rc == PASS ==>
      && r.dst.value.cap == dst.value.cap
      && r.dst.value.Content() == dst.value.Content() + [c]
  {
    if dst.Some? && dst.value.len < dst.value.cap then
      var d := dst.value;
      assert d.Content()[..d.len] == d.Content();
      Step(PASS, Some(Write(d, d.len, [c])))
    else
      Step(FAIL, dst)
  }

  /** The source-side range test shared by both substring operations, as
      written: `len >= start && len - start >= n`. The unsigned subtraction
      is only reached once the first conjunct has ruled out wrap-around. */
  predicate SliceInRange(s: SString, start: Size, n: Size)
    requires s.Valid()
  {
    s.len >= start && Sub(s.len, start) >= n
  }

  /** sstr_substr: overwrite `dst` with the `n` bytes of `src` starting at
      `start`. */
  function Substr(src: Option<SString>, dst: Option<SString>, start: Size, n: Size): (r: Step)
    requires Ok(src) && Ok(dst)
    ensures Ok(r.dst) && (r.dst.Some? <==> dst.Some?)
    ensures r.rc == PASS <==>
      src.Some? && dst.Some? && start + n <= src.value.len && n <= dst.value.cap
    ensures r.rc != PASS ==> r.rc == FAIL && r.dst == dst
    ensures r.rc == PASS ==>
      && r.dst.value.cap == dst.value.cap
      && r.dst.value.Content() == src.value.Content()[start..start + n]
  {
    if src.Some? && dst.Some? && SliceInRange(src.value, start, n) && dst.value.cap >= n then
      Step(PASS, Some(Write(dst.value, 0, src.value.Content()[start..start + n])))
    else
      Step(FAIL, dst)
  }

  /** sstr_appdsubstr: append the `n` bytes of `src` starting at `start` to
      `dst`. */
  function AppdSubstr(src: Option<SString>, dst: Option<SString>, start: Size, n: Size): (r: Step)
    requires Ok(src) && Ok(dst)
    ensures Ok(r.dst) && (r.dst.Some? <==> dst.Some?)
    ensures r.rc == PASS <==>
      src.Some? && dst.Some? && start + n <= src.value.len
      && dst.value.len + n <= dst.value.cap
    ensures r.rc != PASS ==> r.rc == FAIL && r.dst == dst
    ensures r.rc == PASS ==>
      && r.dst.value.cap == dst.value.cap
      && r.dst.value.Content()
         == dst.value.Content() + src.value.Content()[start..start + n]
  {
    if src.Some? && dst.Some? && SliceInRange(src.value, start, n)
       && Sub(dst.value.cap, dst.value.len) >= n
    then
      var d := dst.value;
      assert d.Content()[..d.len] == d.Content();
      Step(PASS, Some(Write(d, d.len, src.value.Content()[start..start + n])))
    else
      Step(FAIL, dst)
  }

  /** sstr_len as written: on NULL it returns SSTR_FAIL, an `unsigned int`,
      converted to `size_t`. With a 64-bit `size_t` that is 2^32 - 1, which
      is not one of the reserved status values above CAP_MAX but a length a
      buffer can really have. */
  function LenAsWritten(s: Option<SString>): (r: Size)
    requires Ok(s)
    ensures s.Some? ==> r == s.value.len
    ensures s.None? ==> r == UINT_MAX
  {
    if s.Some? then s.value.len else FAIL
  }

  /** A full buffer of 2^32 - 1 bytes, a capacity the allocator accepts. */
  ghost function LongBuffer(): (b: SString)
    ensures b.Valid() && b.cap == b.len == UINT_MAX
  {
    SString(seq(UINT_MAX + 1, _ => 0), UINT_MAX, UINT_MAX)
  }

  /** The NULL answers of sstr_len and sstr_cap as written cannot be told
      apart from the length and capacity of a real buffer. */
  lemma SentinelAmbiguous()
    ensures Ok(Some(LongBuffer()))
    ensures LenAsWritten(Some(LongBuffer())) == LenAsWritten(None)
    ensures CapAsWritten(Some(LongBuffer())) == CapAsWritten(None)
  {
  }

  /** sstr_len with the NULL answer taken from the reserved range, as the
      header's reservation of the top values of `size_t` for status codes
      intends: the answer is a length exactly when the pointer is not
      NULL. */
  function Len(s: Option<SString>): (r: Size)
    requires Ok(s)
    ensures s.Some? ==> r == s.value.len
    ensures s.None? <==> r > CAP_MAX
  {
    if s.Some? then s.value.len else SIZE_MAX
  }

  /** sstr_cap as written: the same NULL answer as LenAsWritten. */
  function CapAsWritten(s: Option<SString>): (r: Size)
    requires Ok(s)
    ensures s.Some? ==> r == s.value.cap
    ensures s.None? ==> r == UINT_MAX
  {
    if s.Some? then s.value.cap else FAIL
  }

  /** sstr_cap with the NULL answer taken from the reserved range: the
      answer is a capacity exactly when the pointer is not NULL. */
  function Cap(s: Option<SString>): (r: Size)
    requires Ok(s)
    ensures s.Some? ==> r == s.value.cap
    ensures s.None? <==> r > CAP_MAX
  {
    if s.Some? then s.value.cap else SIZE_MAX
  }

  /** sstr_trunc: shorten the content to `n` bytes; never lengthens it. */
  function Trunc(dst: Option<SString>, n: Size): (r: Step)
    requires Ok(dst)
    ensures Ok(r.dst) && (r.dst.Some? <==> dst.Some?)
    ensures r.rc == PASS <==> dst.Some? && n <= dst.value.len
    ensures r.rc != PASS ==> r.rc == FAIL && r.dst == dst
    ensures r.rc == PASS ==>
      && r.dst.value.cap == dst.value.cap
      && r.dst.value.Content() == dst.value.Content()[..n]
      && r.dst.value.chars == dst.value.chars[n := 0]
  {
    if dst.Some? && n <= dst.value.len then
      var d := dst.value;
      Step(PASS, Some(d.(chars := d.chars[n := 0], len := n)))
    else
      Step(FAIL, dst)
  }

  /** sstr_clear: empty the buffer by rewriting only the first byte. */
  function Clear(dst: Option<SString>): (r: Step)
    requires Ok(dst)
    ensures Ok(r.dst) && (r.dst.Some? <==> dst.Some?)
    ensures r.rc == PASS <==> dst.Some?
    ensures r.rc != PASS ==> r.rc == FAIL && r.dst == dst
    ensures r.rc == PASS ==>
      && r.dst.value.cap == dst.value.cap
      && r.dst.value.Content() == []
      && r.dst.value.chars[0] == 0
      && r.dst.value.chars[1..] == dst.value.chars[1..]
  {
    if dst.Some? then
      var d := dst.value;
      Step(PASS, Some(d.(chars := d.chars[0 := 0], len := 0)))
    else
      Step(FAIL, dst)
  }

  /** sstr_wipe: zero all `cap + 1` storage bytes and empty the buffer. */
  function Wipe(dst: Option<SString>): (r: Step)
    requires Ok(dst)
    ensures Ok(r.dst) && (r.dst.Some? <==> dst.Some?)
    ensures r.rc == PASS <==> dst.Some?
    ensures r.rc != PASS ==> r.rc == FAIL && r.dst == dst
    ensures r.rc == PASS ==>
      && r.dst.value.cap == dst.value.cap
      && r.dst.value.Content() == []
      && |r.dst.value.chars| == dst.value.cap + 1
      && forall k :: 0 <= k < |r.dst.value.chars| ==> r.dst.value.chars[k] == 0
  {
    if dst.Some? then
      var d := dst.value;
      Step(PASS, Some(d.(chars := seq(|d.chars|, _ => 0), len := 0)))
    else
      Step(FAIL, dst)
  }

  /** sstr_swap: exchange storage, capacity and length of two buffers. */
  function Swap(a: Option<SString>, b: Option<SString>): (r: Pair)
    requires Ok(a) && Ok(b)
    ensures Ok(r.first) && Ok(r.second)
    ensures r.rc == PASS <==> a.Some? && b.Some?
    ensures r.rc != PASS ==> r.rc == FAIL && r.first == a && r.second == b
    ensures r.rc == PASS ==> r.first == b && r.second == a
  {
    if a.Some? && b.Some? then Pair(PASS, b, a) else Pair(FAIL, a, b)
  }

  /** sstr_getchar: read the content byte at `idx` into the caller's cell
      `out`. Positions in the spare capacity are refused even though storage
      exists there. */
  function GetChar(src: Option<SString>, out: Option<byte>, idx: Size): (r: Fetch)
    requires Ok(src)
    ensures r.rc == PASS <==> src.Some? && out.Some? && idx < src.value.len
    ensures r.rc != PASS ==> r.rc == FAIL && r.out == out
    ensures r.rc == PASS ==> r.out == Some(src.value.Content()[idx])
  {
    if src.Some? && out.Some? && idx < src.value.len then
      Fetch(PASS, Some(src.value.chars[idx]))
    else
      Fetch(FAIL, out)
  }

  /** sstr_setchar: overwrite the content byte at `idx`; nothing else
      changes. */
  function SetChar(c: byte, dst: Option<SString>, idx: Size): (r: Step)
    requires Ok(dst)
    ensures Ok(r.dst) && (r.dst.Some? <==> dst.Some?)
    ensures r.rc == PASS <==> dst.Some? && idx < dst.value.len
    ensures r.rc != PASS ==> r.rc == FAIL && r.dst == dst
    ensures r.rc == PASS ==>
      && r.dst.value.cap == dst.value.cap
      && r.dst.value.len == dst.value.len
      && r.dst.value.Content() == dst.value.Content()[idx := c]
      && r.dst.value.chars == dst.value.chars[idx := c]
  {
    if dst.Some? && idx < dst.value.len then
      var d := dst.value;
      assert d.chars[idx := c][..d.len] == d.Content()[idx := c];
      Step(PASS, Some(d.(chars := d.chars[idx := c])))
    else
      Step(FAIL, dst)
  }

  /** sstr_cmp: TRUE when both buffers hold the same bytes, FALSE otherwise
      (including at once when the lengths differ), FAIL on NULL. */
  function Cmp(a: Option<SString>, b: Option<SString>): (r: Rc)
    requires Ok(a) && Ok(b)
    ensures r == FAIL <==> a.None? || b.None?
    ensures r == TRUE <==> (
      && a.Some? && b.Some? && a.value.len == b.value.len
      && forall k :: 0 <= k < a.value.len ==> a.value.chars[k] == b.value.chars[k])
    ensures r == TRUE || r == FALSE || r == FAIL
  {
    if a.None? || b.None? then FAIL
    else if a.value.len == b.value.len && a.value.Content() == b.value.Content() then TRUE
    else FALSE
  }

  /** sstr_startswith: TRUE when `pat`'s content is a prefix of `src`'s. */
  function StartsWith(src: Option<SString>, pat: Option<SString>): (r: Rc)
    requires Ok(src) && Ok(pat)
    ensures r == FAIL <==> src.None? || pat.None?
    ensures r == TRUE <==> (
      && src.Some? && pat.Some? && pat.value.len <= src.value.len
      && forall k :: 0 <= k < pat.value.len ==> src.value.chars[k] == pat.value.chars[k])
    ensures r == TRUE || r == FALSE || r == FAIL
  {
    if src.None? || pat.None? then FAIL
    else if IsPrefix(pat.value.Content(), src.value.Content()) then TRUE
    else FALSE
  }

  /** sstr_endswith: TRUE when `pat`'s content is a suffix of `src`'s. */
  function EndsWith(src: Option<SString>, pat: Option<SString>): (r: Rc)
    requires Ok(src) && Ok(pat)
    ensures r == FAIL <==> src.None? || pat.None?
    ensures r == TRUE <==> (
      && src.Some? && pat.Some? && pat.value.len <= src.value.len
      && forall k :: 0 <= k < pat.value.len ==>
           src.value.chars[src.value.len - pat.value.len + k] == pat.value.chars[k])
    ensures r == TRUE || r == FALSE || r == FAIL
  {
    if src.None? || pat.None? then FAIL
    else if IsSuffix(pat.value.Content(), src.value.Content()) then TRUE
    else FALSE
  }

  /** sstr_indexof: the leftmost offset at which `pat`'s content occurs in
      `src`'s, or NPOS. */
  function IndexOf(src: Option<SString>, pat: Option<SString>): (r: Size)
    requires Ok(src) && Ok(pat)
    ensures r == NPOS <==>
      src.None? || pat.None?
      || forall j :: 0 <= j ==> !MatchAt(src.value.Content(), pat.value.Content(), j)
    ensures r != NPOS ==>
      && r + pat.value.len <= src.value.len
      && MatchAt(src.value.Content(), pat.value.Content(), r)
      && forall j :: 0 <= j < r ==> !MatchAt(src.value.Content(), pat.value.Content(), j)
    ensures src.Some? && pat.Some? && pat.value.len == 0 ==> r == 0
  {
    if src.None? || pat.None? then NPOS
    else
      var s := src.value.Content();
      var p := pat.value.Content();
      if |s| < |p| then NPOS
      else if |p| == 0 then
        assert MatchAt(s, p, 0) by { assert s[0..0] == p; }
        0
      else
        match FirstMatch(s, p, 0)
        case Some(i) => i
        case None => NPOS
  }
}

=== FILE: securestr_conv.dfy ===
/** Value model of the raw-byte convenience layer: the source is a raw byte
    array (`None` for a NULL pointer) together with a length the caller
    supplies. Exactly that many bytes are used, zero bytes included; no
    terminator is searched for. */
module SecureStrConv {
  import opened Bytes
  import opened SecureStr

  /** The bytes a raw source pointer makes available: NULL, or at least the
      `n` bytes the caller vouches for. */
  predicate Readable(src: Option<seq<byte>>, n: Size) {
    src.None? || n <= |src.value|
  }

  /** SSTRING(text): a read-only view of a literal. `text` is the literal
      without the terminator the compiler appends, so `sizeof(text) - 1`
      is `|text|`. The view satisfies `Valid()`. Its storage is the
      literal itself, which C forbids writing, so it is used only as a
      source or a pattern, never as a destination. */
  function Literal(text: seq<byte>): (r: SString)
    requires |text| <= CAP_MAX
    ensures r.Valid() && r.len == r.cap == |text| && r.Content() == text
  {
    SString(text + [0], |text|, |text|)
  }

  /** sstr_cpycstr: overwrite `dst` with the first `n` raw bytes. */
  function CpyCstr(src: Option<seq<byte>>, dst: Option<SString>, n: Size): (r: Step)
    requires Readable(src, n) && Ok(dst)
    ensures Ok(r.dst) && (r.dst.Some? <==> dst.Some?)
    ensures r.rc == PASS <==> src.Some? && dst.Some? && n <= dst.value.cap
    ensures r.rc != PASS ==> r.rc == FAIL && r.dst == dst
    ensures r.rc == PASS ==>
      && r.dst.value.cap == dst.value.cap
      && r.dst.value.len == n
      && r.dst.value.Content() == src.value[..n]
  {
    if src.Some? && dst.Some? && dst.value.cap >= n then
      Step(PASS, Some(Write(dst.value, 0, src.value[..n])))
    else
      Step(FAIL, dst)
  }

  /** sstr_appdcstr: append the first `n` raw bytes to `dst`. */
  function AppdCstr(src: Option<seq<byte>>, dst: Option<SString>, n: Size): (r: Step)
    requires Readable(src, n) && Ok(dst)
    ensures Ok(r.dst) && (r.dst.Some? <==> dst.Some?)
    ensures r.rc == PASS <==> src.Some? && dst.Some? && dst.value.len + n <= dst.value.cap
    ensures r.rc != PASS ==> r.rc == FAIL && r.dst == dst
    ensures r.rc == PASS ==>
      && r.dst.value.cap == dst.value.cap
      && r.dst.value.Content() == dst.value.Content() + src.value[..n]
  {
    if src.Some? && dst.Some? && Sub(dst.value.cap, dst.value.len) >= n then
      var d := dst.value;
      assert d.Content()[..d.len] == d.Content();
      Step(PASS, Some(Write(d, d.len, src.value[..n])))
    else
      Step(FAIL, dst)
  }

  /** sstr_cmpcstr: TRUE when the buffer holds exactly the first `n` raw
      bytes, FALSE when the lengths agree but a byte differs, and FAIL (not
      FALSE) when `n` differs from the buffer's length or a pointer is NULL. */
  function CmpCstr(src: Option<SString>, pat: Option<seq<byte>>, n: Size): (r: Rc)
    requires Ok(src) && Readable(pat, n)
    ensures r == FAIL <==> src.None? || pat.None? || n != src.value.len
    ensures r == TRUE <==> (
      && src.Some? && pat.Some? && n == src.value.len
      && forall k :: 0 <= k < n ==> src.value.chars[k] == pat.value[k])
    ensures r == TRUE || r == FALSE || r == FAIL
  {
    if src.None? || pat.None? || n != src.value.len then FAIL
    else if src.value.Content() == pat.value[..n] then TRUE
    else FALSE
  }
}

=== FILE: securestr_conv_impl.dfy ===
/** Heap model of the raw-byte convenience layer: the raw source is a byte
    array that may be `null`, read for exactly the `n` bytes the caller
    names. Each method is proved to have the effect `SecureStrConv`
    describes. */
module SecureStrConvImpl {
  import opened Bytes
  import S = SecureStr
  import C = SecureStrConv
  import opened SecureStrImpl

  /** The bytes behind a possibly-NULL raw pointer. */
  function RawOf(a: array?<byte>): (r: Option<seq<byte>>)
    reads a
    ensures a != null ==> r.Some? && |r.value| == a.Length
    ensures a == null ==> r.None?
  {
    if a == null then None else Some(a[..])
  }

  /** sstr_cpycstr. The raw source may even be the destination's own
      storage: the copy then rewrites each byte with itself. */
  method CpyCstr(src: array?<byte>, dst: SStr?, n: Size) returns (rc: S.Rc)
    requires C.Readable(RawOf(src), n) && Ok(dst)
    modifies Repr(dst)
    ensures dst != null ==> dst.chars == old(dst.chars)
    ensures var r := C.CpyCstr(old(RawOf(src)), old(ModelOf(dst)), n);
      rc == r.rc && ModelOf(dst) == r.dst
  {
    if src != null && dst != null {
      if dst.cap >= n {
        assert src[..][..n] == src[0..n];
        WriteAt(dst, 0, src, 0, n);
        return S.PASS;
      }
    }
    return S.FAIL;
  }

  /** sstr_appdcstr. */
  method AppdCstr(src: array?<byte>, dst: SStr?, n: Size) returns (rc: S.Rc)
    requires C.Readable(RawOf(src), n) && Ok(dst)
    requires src != null && dst != null && src == dst.chars ==> n <= dst.len
    modifies Repr(dst)
    ensures dst != null ==> dst.chars == old(dst.chars)
    ensures var r := C.AppdCstr(old(RawOf(src)), old(ModelOf(dst)), n);
      rc == r.rc && ModelOf(dst) == r.dst
  {
    if src != null && dst != null {
      if Sub(dst.cap, dst.len) >= n {
        ghost var d0 := dst.Model();
        assert src[..][..n] == src[0..n];
        assert d0.Content()[..d0.len] == d0.Content();
        WriteAt(dst, dst.len, src, 0, n);
        return S.PASS;
      }
    }
    return S.FAIL;
  }

  /** sstr_cmpcstr: a length mismatch is a failure, not a FALSE. */
  method CmpCstr(src: SStr?, pat: array?<byte>, n: Size) returns (rc: S.Rc)
    requires Ok(src) && C.Readable(RawOf(pat), n)
    ensures rc == C.CmpCstr(ModelOf(src), RawOf(pat), n)
  {
    if src != null && pat != null {
      if n == src.len {
        var i := 0;
        while i < n
          invariant 0 <= i <= n
          invariant src.chars[..i] == pat[..i]
        {
          if src.chars[i] != pat[i] {
            assert src.Model().Content()[i] != pat[..][..n][i];
            return S.FALSE;
          }
          i := i + 1;
        }
        assert src.Model().Content() == pat[..][..n];
        return S.TRUE;
      }
    }
    return S.FAIL;
  }
}

=== FILE: securestr_impl.dfy ===
/** Heap model of the secure string library: the C struct as a class over a
    byte array of `cap + 1` elements, NULL as a `null` reference, and every
    library function as a method whose loops follow the C code. Each method
    is proved to have exactly the effect the value model `SecureStr`
    describes. Source and destination may be the same buffer for the copy,
    append, substring and swap operations, as callers are allowed to do. */
module SecureStrImpl {
  import opened Bytes
  import S = SecureStr

  /** The C `sstring` struct. */
  class SStr {
    var chars: array<byte>
    var cap: nat
    var len: nat

    /** The buffer's state as a value. */
    function Model(): (m: S.SString)
      reads this, chars
      ensures m.cap == cap && m.len == len && |m.chars| == chars.Length
    {
      S.SString(chars[..], cap, len)
    }

    ghost predicate Valid()
      reads this, chars
    {
      Model().Valid()
    }

    /** An empty buffer over `storage`, which must already hold the
        terminator of the empty content. */
    constructor (storage: array<byte>, capacity: nat)
      requires storage.Length == capacity + 1 && capacity <= S.CAP_MAX && storage[0] == 0
      ensures chars == storage && cap == capacity && len == 0
      ensures Valid()
    {
      chars := storage;
      cap := capacity;
      len := 0;
    }
  }

  /** The state behind a possibly-NULL buffer pointer. */
  function ModelOf(s: SStr?): (m: Option<S.SString>)
    reads s, if s != null then {s.chars} else {}
    ensures m.None? <==> s == null
  {
    if s == null then None else Some(s.Model())
  }

  /** A buffer pointer as the library accepts it: NULL or a valid buffer. */
  ghost predicate Ok(s: SStr?)
    reads s, if s != null then {s.chars} else {}
  {
    S.Ok(ModelOf(s))
  }

  /** The memory a call on `s` may change: the struct and its storage. */
  function Repr(s: SStr?): (r: set<object?>)
    reads s
    ensures s != null ==> s in r && s.chars in r
    ensures s == null ==> r == {}
  {
    if s == null then {} else {s, s.chars}
  }

  /** Each buffer owns its storage: two different buffers never share it. */
  predicate Owned(a: SStr?, b: SStr?)
    reads a, b
  {
    a == null || b == null || a == b || a.chars != b.chars
  }

  /** The forward byte-copy loop every copy and append is built on: copy `n`
      bytes from `from[si..]` to `to[di..]` in increasing order. When both
      are the same array the copy is still exact provided reading never
      lags behind writing (`di <= si`) or the two ranges do not overlap. */
  method CopyBytes(from: array<byte>, si: nat, to: array<byte>, di: nat, n: nat)
    requires si + n <= from.Length && di + n <= to.Length
    requires from == to ==> di <= si || si + n <= di
    modifies to
    ensures to[..] == old(to[..di] + from[si..si + n] + to[di + n..])
  {
    ghost var f0 := from[..];
    ghost var t0 := to[..];
    var k := 0;
    while k < n
      invariant 0 <= k <= n
      invariant forall j :: 0 <= j < di ==> to[j] == t0[j]
      invariant forall j :: di <= j < di + k ==> to[j] == f0[si + j - di]
      invariant forall j :: di + k <= j < to.Length ==> to[j] == t0[j]
      invariant from != to ==> from[..] == f0
    {
      to[di + k] := from[si + k];
      k := k + 1;
    }
    assert to[..] == t0[..di] + f0[si..si + n] + t0[di + n..];
  }

  /** The tail every copy and append shares: copy `n` bytes from
      `from[si..]` behind the first `at` content bytes of `dst`, set the length
      to `at + n` and write the terminator. */
  method WriteAt(dst: SStr, at: nat, from: array<byte>, si: nat, n: nat)
    requires dst.Valid() && at <= dst.len && at + n <= dst.cap
    requires si + n <= from.Length
    requires from == dst.chars ==> at <= si || si + n <= at
    modifies dst, dst.chars
    ensures dst.chars == old(dst.chars)
    ensures dst.Model() == S.Write(old(dst.Model()), at, old(from[si..si + n]))
  {
    ghost var d0 := dst.Model();
    ghost var bytes := from[si..si + n];
    CopyBytes(from, si, dst.chars, at, n);
    assert dst.chars[..] == (d0.chars[..at] + bytes) + d0.chars[at + n..];
    dst.len := at + n;
    dst.chars[at + n] := 0;
    TerminateAfter(d0.chars[..at] + bytes, d0.chars[at + n..]);
  }

  /** sstr_alloc. Storage is obtained with `new`; running out of memory is
      not modelled, only the capacity ceiling. */
  method Alloc(cap: Size) returns (s: SStr?)
    ensures s == null <==> cap > S.CAP_MAX
    ensures s != null ==> fresh(s) && fresh(s.chars) && s.chars.Length == cap + 1
    ensures s != null ==> Some(s.Model()) == S.Alloc(cap, s.chars[1..])
  {
    if cap <= S.CAP_MAX {
      var storage := new byte[cap + 1];
      storage[0] := 0;
      assert storage[..] == [0] + storage[1..];
      s := new SStr(storage, cap);
    } else {
      s := null;
    }
  }

  /** sstr_cpy. */
  method Cpy(src: SStr?, dst: SStr?) returns (rc: S.Rc)
    requires Ok(src) && Ok(dst) && Owned(src, dst)
    modifies Repr(dst)
    ensures dst != null ==> dst.chars == old(dst.chars)
    ensures var r := S.Cpy(old(ModelOf(src)), old(ModelOf(dst)));
      rc == r.rc && ModelOf(dst) == r.dst
  {
    ghost var r := S.Cpy(ModelOf(src), ModelOf(dst));
    if src != null && dst != null {
      if dst.cap >= src.len {
        ghost var s0 := src.Model();
        ghost var d0 := dst.Model();
        assert r == S.Step(S.PASS, Some(S.Write(d0, 0, s0.Content())));
        assert s0.Content() == src.chars[0..src.len];
        WriteAt(dst, 0, src.chars, 0, src.len);
        assert ModelOf(dst) == r.dst;
        return S.PASS;
      }
    }
    return S.FAIL;
  }

  /** sstr_appd. When `src` and `dst` are the same buffer the content is
      doubled: the loop reads only the old content and writes only past
      it. */
  method Appd(src: SStr?, dst: SStr?) returns (rc: S.Rc)
    requires Ok(src) && Ok(dst) && Owned(src, dst)
    modifies Repr(dst)
    ensures dst != null ==> dst.chars == old(dst.chars)
    ensures var r := S.Appd(old(ModelOf(src)), old(ModelOf(dst)));
      rc == r.rc && ModelOf(dst) == r.dst
  {
    ghost var r := S.Appd(ModelOf(src), ModelOf(dst));
    if src != null && dst != null {
      if Sub(dst.cap, dst.len) >= src.len {
        ghost var d0 := dst.Model();
        ghost var s0 := src.Model();
        assert d0.Content()[..d0.len] == d0.Content();
        assert r == S.Step(S.PASS, Some(S.Write(d0, d0.len, s0.Content())));
        assert s0.Content() == src.chars[0..src.len];
        WriteAt(dst, dst.len, src.chars, 0, src.len);
        assert ModelOf(dst) == r.dst;
        return S.PASS;
      }
    }
    return S.FAIL;
  }

  /** sstr_appdchar. */
  method AppdChar(c: byte, dst: SStr?) returns (rc: S.Rc)
    requires Ok(dst)
    modifies Repr(dst)
    ensures dst != null ==> dst.chars == old(dst.chars)
    ensures var r := S.AppdChar(c, old(ModelOf(dst)));
      rc == r.rc && ModelOf(dst) == r.dst
  {
    ghost var r := S.AppdChar(c, ModelOf(dst));
    if dst != null {
      if dst.len < dst.cap {
        ghost var d0 := dst.Model();
        var at := dst.len;
        dst.chars[at] := c;
        dst.len := at + 1;
        dst.chars[at + 1] := 0;
        assert dst.chars[..] == d0.chars[..at] + [c] + [0] + d0.chars[at + 2..];
        assert d0.Content()[..at] == d0.Content();
        assert r.dst == Some(S.Write(d0, at, [c]));
        return S.PASS;
      }
    }
    return S.FAIL;
  }

  /** sstr_substr. With `src == dst` the bytes move towards the front, so
      each is read before it can be overwritten. */
  method Substr(src: SStr?, dst: SStr?, start: Size, n: Size) returns (rc: S.Rc)
    requires Ok(src) && Ok(dst) && Owned(src, dst)
    modifies Repr(dst)
    ensures dst != null ==> dst.chars == old(dst.chars)
    ensures var r := S.Substr(old(ModelOf(src)), old(ModelOf(dst)), start, n);
      rc == r.rc && ModelOf(dst) == r.dst
  {
    ghost var r := S.Substr(ModelOf(src), ModelOf(dst), start, n);
    if src != null && dst != null {
      if src.len >= start && Sub(src.len, start) >= n && dst.cap >= n {
        ghost var d0 := dst.Model();
        ghost var s0 := src.Model();
        ghost var slice := s0.Content()[start..start + n];
        assert r == S.Step(S.PASS, Some(S.Write(d0, 0, slice)));
        assert slice == src.chars[start..start + n];
        WriteAt(dst, 0, src.chars, start, n);
        assert ModelOf(dst) == r.dst;
        return S.PASS;
      }
    }
    return S.FAIL;
  }

  /** sstr_appdsubstr. With `src == dst` the slice lies inside the old
      content and is written past it. */
  method AppdSubstr(src: SStr?, dst: SStr?, start: Size, n: Size) returns (rc: S.Rc)
    requires Ok(src) && Ok(dst) && Owned(src, dst)
    modifies Repr(dst)
    ensures dst != null ==> dst.chars == old(dst.chars)
    ensures var r := S.AppdSubstr(old(ModelOf(src)), old(ModelOf(dst)), start, n);
      rc == r.rc && ModelOf(dst) == r.dst
  {
    ghost var r := S.AppdSubstr(ModelOf(src), ModelOf(dst), start, n);
    if src != null && dst != null {
      if src.len >= start && Sub(src.len, start) >= n && Sub(dst.cap, dst.len) >= n {
        ghost var d0 := dst.Model();
        ghost var s0 := src.Model();
        ghost var slice := s0.Content()[start..start + n];
        assert d0.Content()[..d0.len] == d0.Content();
        assert r == S.Step(S.PASS, Some(S.Write(d0, d0.len, slice)));
        assert slice == src.chars[start..start + n];
        WriteAt(dst, dst.len, src.chars, start, n);
        assert ModelOf(dst) == r.dst;
        return S.PASS;
      }
    }
    return S.FAIL;
  }

  /** sstr_trunc. */
  method Trunc(dst: SStr?, n: Size) returns (rc: S.Rc)
    requires Ok(dst)
    modifies Repr(dst)
    ensures dst != null ==> dst.chars == old(dst.chars)
    ensures var r := S.Trunc(old(ModelOf(dst)), n);
      rc == r.rc && ModelOf(dst) == r.dst
  {
    if dst != null {
      if n <= dst.len {
        dst.len := n;
        dst.chars[n] := 0;
        return S.PASS;
      }
    }
    return S.FAIL;
  }

  /** sstr_clear. */
  method Clear(dst: SStr?) returns (rc: S.Rc)
    requires Ok(dst)
    modifies Repr(dst)
    ensures dst != null ==> dst.chars == old(dst.chars)
    ensures var r := S.Clear(old(ModelOf(dst)));
      rc == r.rc && ModelOf(dst) == r.dst
  {
    if dst != null {
      dst.len := 0;
      dst.chars[0] := 0;
      return S.PASS;
    }
    return S.FAIL;
  }

  /** sstr_wipe: the loop runs to `cap` inclusive, covering the terminator
      slot as well; it ends because `cap` is below the ceiling, so the index cannot wrap. */
  method Wipe(dst: SStr?) returns (rc: S.Rc)
    requires Ok(dst)
    modifies Repr(dst)
    ensures dst != null ==> dst.chars == old(dst.chars)
    ensures var r := S.Wipe(old(ModelOf(dst)));
      rc == r.rc && ModelOf(dst) == r.dst
  {
    if dst != null {
      var i := 0;
      while i <= dst.cap
        invariant dst.chars == old(dst.chars) && dst.cap == old(dst.cap)
        invariant 0 <= i <= dst.cap + 1 == dst.chars.Length
        invariant forall k :: 0 <= k < i ==> dst.chars[k] == 0
      {
        dst.chars[i] := 0;
        i := i + 1;
      }
      dst.len := 0;
      assert dst.chars[..] == seq(dst.chars.Length, _ => 0);
      return S.PASS;
    }
    return S.FAIL;
  }

  /** sstr_swap: a three-way exchange of all fields through a temporary. */
  method Swap(a: SStr?, b: SStr?) returns (rc: S.Rc)
    requires Ok(a) && Ok(b)
    modifies a, b
    ensures a != null && b != null ==> a.chars == old(b.chars) && b.chars == old(a.chars)
    ensures var r := S.Swap(old(ModelOf(a)), old(ModelOf(b)));
      rc == r.rc && ModelOf(a) == r.first && ModelOf(b) == r.second
  {
    if a != null && b != null {
      var tmpCap, tmpLen, tmpChars := a.cap, a.len, a.chars;
      a.cap, a.len, a.chars := b.cap, b.len, b.chars;
      b.cap, b.len, b.chars := tmpCap, tmpLen, tmpChars;
      return S.PASS;
    }
    return S.FAIL;
  }

  /** Two mutations in a row on one buffer: every operation keeps the
      buffer's own storage, so a second call is as permitted as the first.
      Clearing and then appending one byte leaves exactly that byte. */
  method ClearThenAppdChar(c: byte, a: SStr) returns (rc: S.Rc)
    requires a.Valid() && a.cap > 0
    modifies a, a.chars
    ensures rc == S.PASS && a.chars == old(a.chars)
    ensures a.Valid() && a.Model().Content() == [c]
  {
    rc := Clear(a);
    rc := AppdChar(c, a);
  }

  /** sstr_getchar; `out` is the caller's `char` cell (None when its pointer
      is NULL) and `out'` its value afterwards. */
  method GetChar(src: SStr?, out: Option<byte>, idx: Size) returns (rc: S.Rc, out': Option<byte>)
    requires Ok(src)
    ensures rc == S.GetChar(ModelOf(src), out, idx).rc
    ensures out' == S.GetChar(ModelOf(src), out, idx).out
  {
    if src != null && out.Some? {
      if idx < src.len {
        return S.PASS, Some(src.chars[idx]);
      }
    }
    return S.FAIL, out;
  }

  /** sstr_setchar. */
  method SetChar(c: byte, dst: SStr?, idx: Size) returns (rc: S.Rc)
    requires Ok(dst)
    modifies Repr(dst)
    ensures dst != null ==> dst.chars == old(dst.chars)
    ensures var r := S.SetChar(c, old(ModelOf(dst)), idx);
      rc == r.rc && ModelOf(dst) == r.dst
  {
    if dst != null {
      if idx < dst.len {
        dst.chars[idx] := c;
        return S.PASS;
      }
    }
    return S.FAIL;
  }

  /** sstr_cmp: lengths first, then a forward scan that stops at the first
      differing byte. */
  method Cmp(a: SStr?, b: SStr?) returns (rc: S.Rc)
    requires Ok(a) && Ok(b)
    ensures rc == S.Cmp(ModelOf(a), ModelOf(b))
  {
    if a != null && b != null {
      if a.len == b.len {
        var i := 0;
        while i < a.len
          invariant 0 <= i <= a.len
          invariant a.chars[..i] == b.chars[..i]
        {
          if a.chars[i] != b.chars[i] {
            assert a.Model().Content()[i] != b.Model().Content()[i];
            return S.FALSE;
          }
          i := i + 1;
        }
        assert a.Model().Content() == a.chars[..i];
        return S.TRUE;
      }
      return S.FALSE;
    }
    return S.FAIL;
  }

  /** sstr_startswith: a forward scan over the pattern's length. */
  method StartsWith(src: SStr?, pat: SStr?) returns (rc: S.Rc)
    requires Ok(src) && Ok(pat)
    ensures rc == S.StartsWith(ModelOf(src), ModelOf(pat))
  {
    if src != null && pat != null {
      if src.len >= pat.len {
        var i := 0;
        while i < pat.len
          invariant 0 <= i <= pat.len
          invariant src.chars[..i] == pat.chars[..i]
        {
          if src.chars[i] != pat.chars[i] {
            assert src.Model().Content()[..pat.len][i] != pat.Model().Content()[i];
            return S.FALSE;
          }
          i := i + 1;
        }
        assert src.Model().Content()[..pat.len] == pat.Model().Content();
        return S.TRUE;
      }
      return S.FALSE;
    }
    return S.FAIL;
  }

  /** sstr_endswith: a backward scan from both ends. */
  method EndsWith(src: SStr?, pat: SStr?) returns (rc: S.Rc)
    requires Ok(src) && Ok(pat)
    ensures rc == S.EndsWith(ModelOf(src), ModelOf(pat))
  {
    if src != null && pat != null {
      if src.len >= pat.len {
        var si := src.len;
        var pi := pat.len;
        ghost var off := src.len - pat.len;
        while pi > 0
          invariant 0 <= pi <= pat.len
          invariant si == off + pi
          invariant forall k :: pi <= k < pat.len ==> src.chars[off + k] == pat.chars[k]
        {
          pi := pi - 1;
          si := si - 1;
          if src.chars[si] != pat.chars[pi] {
            assert src.Model().Content()[off..][pi] != pat.Model().Content()[pi];
            return S.FALSE;
          }
        }
        assert src.Model().Content()[off..] == pat.Model().Content();
        return S.TRUE;
      }
      return S.FALSE;
    }
    return S.FAIL;
  }

  /** The inner loop of sstr_indexof: the first pattern byte already
      matches at `i`; compare the rest, stopping at the first difference.
      The loop also tests `off < src.len`, but that test never ends it
      first: the outer bound keeps the whole window inside the content. So
      the answer is true exactly for a complete match at `i`. */
  method MatchRest(src: SStr, pat: SStr, i: nat) returns (matched: bool)
    requires src.Valid() && pat.Valid()
    requires 0 < pat.len && i + pat.len <= src.len && src.chars[i] == pat.chars[0]
    ensures matched <==> MatchAt(src.Model().Content(), pat.Model().Content(), i)
  {
    ghost var s := src.Model().Content();
    ghost var p := pat.Model().Content();
    var off := i + 1;
    var pi := 1;
    while off < src.len && pi < pat.len
      invariant 1 <= pi <= pat.len
      invariant off == i + pi
      invariant off < src.len || pi == pat.len
      invariant forall k :: 0 <= k < pi ==> s[i + k] == p[k]
    {
      if src.chars[off] != pat.chars[pi] {
        MatchAtBytewise(s, p, i);
        pi := 0;
        break;
      }
      off := off + 1;
      pi := pi + 1;
    }
    if pi != 0 {
      MatchAtBytewise(s, p, i);
    }
    return pi != 0;
  }

  /** sstr_indexof: naive leftmost search. For each candidate offset the
      first byte is compared as a cheap filter, then the rest. */
  method IndexOf(src: SStr?, pat: SStr?) returns (r: Size)
    requires Ok(src) && Ok(pat)
    ensures r == S.IndexOf(ModelOf(src), ModelOf(pat))
  {
    if src != null && pat != null {
      if src.len >= pat.len {
        if pat.len == 0 {
          return 0;
        }
        ghost var s := src.Model().Content();
        ghost var p := pat.Model().Content();
        var i := 0;
        while i <= Sub(src.len, pat.len)
          invariant 0 <= i <= src.len - pat.len + 1
          invariant forall j :: 0 <= j < i ==> !MatchAt(s, p, j)
        {
          if src.chars[i] == pat.chars[0] {
            var matched := MatchRest(src, pat, i);
            if matched {
              return i;
            }
          } else {
            MatchAtBytewise(s, p, i);
          }
          i := i + 1;
        }
        assert forall j :: 0 <= j ==> !MatchAt(s, p, j);
      }
    }
    return S.NPOS;
  }
}
